=== FILE: README.md ===
# Stereo block matching, modelled in Dafny

This project models the integer core of a stereo-correspondence assignment
solution. It has two matchers.

- `stereo_disparity_fast` compares 20x20 windows of the left and right images,
  after both are edge-padded by 10 pixels.
- `stereo_disparity_best` first sharpens both images with a 3x3 kernel. It then
  compares 7x7 windows over images edge-padded by 3. In its gradient branch it
  uses the 6x6 windows of `compute_sad` plus a gradient term.

For each pixel `(i, j)` of the inclusive bounding box, both matchers scan the
candidates `d = -maxd, ..., maxd - 1` in order. They skip every `d` whose
shifted column `j + d` leaves the image. They score the rest by the sum of
absolute differences (SAD). A later `d` replaces the best only when its
score is strictly lower, so the first `d` that reaches the minimum is kept,
and they store `abs(d)`. Every other pixel stays 0. The best
matcher then runs a median filter and a percentile filter on the bounding-box
sub-array and writes the results back in place. Both matchers end with a shape
check that raises `TypeError`.

Intensities and disparities are integers (`seq<seq<int>>`), so every SAD is
exact.

Modules:

- `Common` (common.dfy): `Option`, `Result`, the two errors, `Abs`, `Min`,
  `Max` and `Clamp`.
- `Grid` (grid.dfy): images, `np.zeros`, `np.pad(mode='edge')`, window slicing
  and SAD.
- `Sharpening` (sharpen.dfy): the 3x3 convolution with zero boundary and the
  sharpening kernel.
- `Disparities` (candidates.dfy): `range(-maxd, maxd)` and the bounds filter.
- `Selection` (selection.dfy): the strict-`<` argmin.
- `Matcher` (matcher.dfy): the three guards, windows, scores and the per-pixel
  value. It also holds the two loops as methods: `ScanPixel` (the disparity
  loop) and `MatchBox` (the pixel loops).
- `Fast` (fast.dfy) and `Best` (best.dfy): the two entry points, with the
  bounding-box write-back and post-filtering in `Best`.

## Model

| member | source | states |
|---|---|---|
| Grid.Zeros | templates/stereo_disparity_fast.py:10 | `np.zeros` gives an m x n map whose every entry is 0. |
| Grid.EdgePad | templates/stereo_disparity_fast.py:13-15 | Padding by `p` gives an (m+2p)x(n+2p) array. Entry `(r, c)` is `I[clamp(r-p, 0, m-1)][clamp(c-p, 0, n-1)]`. |
| Grid.EdgePadInterior | templates/stereo_disparity_fast.py:13-14 | The interior of the padded array, shifted by `p`, equals the original image. |
| Grid.EdgePadConstant | templates/stereo_disparity_fast.py:13-14 | Edge padding of a constant image is constant. |
| Grid.WindowOfPad | templates/stereo_disparity_fast.py:23 | Entry `(u, v)` of a window of the padded image is the original pixel at the clamped position `(i-p+u, j-p+v)`. |
| Grid.Sad | templates/stereo_disparity_fast.py:33 | The SAD of two windows is non-negative. |
| Grid.SadZeroIff | templates/stereo_disparity_fast.py:33 | The SAD is 0 if and only if the two windows are equal. |
| Grid.SadOfConstants | templates/stereo_disparity_fast.py:33 | Two windows whose entries all equal the same constant have SAD 0. |
| Sharpening.Sharpen | templates/stereo_disparity_best.py:36-38 | Sharpening keeps the shape. Output `(r, c)` is `5*I[r][c]` minus the four neighbours, and a neighbour outside the image reads as 0 (`mode='constant'`). The result equals the correlation with the same kernel. |
| Sharpening.Convolve | templates/stereo_disparity_best.py:37-38 | Convolution with a 3x3 kernel keeps the image's shape. |
| Sharpening.ConvolveIsCorrelateHalfTurn | templates/stereo_disparity_best.py:37-38 | Convolving with any 3x3 kernel equals correlating with that kernel turned by half a turn, entry `(u, v)` taken from `(2-u, 2-v)`. |
| Sharpening.SymmetricConvolveIsCorrelate | templates/stereo_disparity_best.py:36-37 | For a 3x3 kernel that a half turn leaves unchanged, convolution equals correlation. |
| Disparities.Candidates | templates/stereo_disparity_fast.py:26-28 | `d` is scored if and only if `-maxd <= d < maxd` and `0 <= j + d < n`. |
| Disparities.CandidatesInterval | templates/stereo_disparity_fast.py:26-28 | The scored candidates are exactly the interval `[max(-maxd, -j), min(maxd, n-j))`, in increasing order. |
| Disparities.FirstCandidate | templates/stereo_disparity_fast.py:26-28 | For a pixel in the image and `maxd >= 1`, some candidate is scored. The first one is `max(-maxd, -j)`, and its magnitude is `min(maxd, j)`. |
| Disparities.FilterValidMembers | templates/stereo_disparity_fast.py:26-28 | The bounds filter keeps a candidate if and only if it is in the scanned list and column `j + d` exists. |
| Disparities.FilterRange | templates/stereo_disparity_fast.py:26-28 | Filtering any range `[lo, hi)` by the bounds guard leaves the contiguous range `[max(lo, -j), min(hi, n-j))`, in order. |
| Disparities.CandidatesIncreasing | templates/stereo_disparity_fast.py:26 | Candidates are scanned in strictly increasing order of `d`. |
| Disparities.FilterValidSnoc | templates/stereo_disparity_fast.py:26-28 | Scanning one more `d` adds it to the scored list exactly when the guard accepts it. |
| Selection.FirstMin | templates/stereo_disparity_fast.py:20-36 | The scan keeps a position whose score is minimal, and every earlier score is strictly larger. It is the only such position, and there is none exactly when nothing was scored. |
| Selection.FirstMinSnoc | templates/stereo_disparity_fast.py:34-36 | One more scored candidate takes over exactly when it is the first one scored or is strictly below the current best. |
| Selection.LaterTieKeepsFirst | templates/stereo_disparity_fast.py:34 | A later score equal to the current best never replaces it. |
| Selection.AllTiedPicksFirst | templates/stereo_disparity_fast.py:34-36 | When every score ties, the first candidate scanned wins. |
| Matcher.FastGuard | templates/stereo_disparity_fast.py:28 | The guard `9 < j+d+10 < new_width-10` holds exactly when `0 <= j+d < new_width-20`, that is, when column `j+d` is in the image. |
| Matcher.BestGuard | templates/stereo_disparity_best.py:84 | The guard `hw-1 < j+d+hw < new_width-hw` holds exactly when `0 <= j+d < new_width-2*hw`. |
| Matcher.GuardsAgree | templates/stereo_disparity_best.py:60 | On padded width `n + 2*pad`, the fast guard, the intensity-branch guard and the gradient-branch guard `0 <= x+d < n` accept the same `d`. |
| Matcher.GuardedWindowsInRange | templates/stereo_disparity_fast.py:28-30 | Under the guard, with the pixel in the image, both windows `pad[i:i+w, j:j+w]` and `pad[i:i+w, j+d:j+d+w]` lie inside the padded array. |
| Matcher.WindowReadsOriginal | templates/stereo_disparity_best.py:69-79 | Each matcher's window reads the original image at clamped coordinates starting `pad` rows and columns before the pixel. That is 20 wide for the fast matcher, 7 for the intensity branch and 6 (`2*hw`) in `compute_sad`. |
| Matcher.BestWindowCentred | templates/stereo_disparity_best.py:40-41 | The 7x7 window of the intensity branch is centred: its middle entry is the pixel itself. |
| Matcher.Window | templates/stereo_disparity_fast.py:23 | The window `pad[i:i+w, c:c+w]` is w x w, with w = 20, 7 or 6, and entry `(u, v)` is `pad[i+u][c+v]`. |
| Matcher.Score | templates/stereo_disparity_fast.py:30-33 | For the intensity matchers the score is a non-negative SAD, and it is 0 exactly when the left and shifted right windows are equal. In the gradient branch the score minus the gradient term is non-negative. |
| Matcher.PixelValue | templates/stereo_disparity_fast.py:20-39 | The stored value is `abs(d)` of the first strict-minimum candidate, or the initial 0 if none. It lies in `[0, maxd]` and is 0 whenever `maxd <= 0`. |
| Matcher.ScanPixel | templates/stereo_disparity_fast.py:20-36 | The disparity loop, written with the source's guard, strict `<` and `abs(d)`, returns exactly the declarative per-pixel value. |
| Matcher.TracksStep | templates/stereo_disparity_fast.py:34-36 | One loop iteration keeps `best_score` and `best_d` equal to the score and magnitude of the first strict minimum seen so far. |
| Matcher.ScanStep | templates/stereo_disparity_fast.py:26-36 | If, before candidate `d`, the best score and `abs(d)` describe the first strict minimum over the candidates accepted so far, then after the guarded update for `d` they do so over the candidates accepted up to `d + 1`. |
| Matcher.MatchBox | templates/stereo_disparity_fast.py:10-39 | The pixel loops, starting from zeros, give an m x n map. Every pixel outside the inclusive box is 0, every pixel inside holds its per-pixel value, and all entries lie in `[0, maxd]`. |
| Matcher.UniformPixel | templates/stereo_disparity_fast.py:26-36 | For constant, equal padded images and `maxd >= 1`, every score is 0 and the stored value at column `j` is `min(maxd, j)`. |
| Matcher.IdenticalPixel | templates/stereo_disparity_fast.py:26-36 | When both padded images are the same, the chosen candidate `d` is at most 0 and has score 0, and the stored value is `-d`. |
| Matcher.ShapeCheck | templates/stereo_disparity_fast.py:41-44 | The final check passes the map through unchanged when it has the left image's shape. Otherwise it fails with the shape error (`TypeError`). |
| Fast.FastPad | templates/stereo_disparity_fast.py:13-14 | The fast matcher's padded image is (m+20)x(n+20), and entry `(r, c)` is `I[clamp(r-10)][clamp(c-10)]`. |
| Fast.StereoDisparityFast | templates/stereo_disparity_fast.py:4-46 | The fast matcher never raises the `TypeError`. Its map has the left image's shape, is 0 outside the box, holds the per-pixel value inside it, and lies within `[0, maxd]`. |
| Fast.UniformPairFast | templates/stereo_disparity_fast.py:13-36 | For a uniform left and right image with `maxd >= 1`, each box pixel at column `j` stores `min(maxd, j)`. |
| Best.Crop | templates/stereo_disparity_best.py:97 | Reading the box slice gives a (y1-y0+1)x(x1-x0+1) array whose entry `(r, c)` is `Id[y0+r][x0+c]`. |
| Best.BestPad | templates/stereo_disparity_best.py:69-70 | The best matcher's padded image is (m+6)x(n+6), and entry `(r, c)` is the sharpened image at `(clamp(r-3), clamp(c-3))`. |
| Best.Paste | templates/stereo_disparity_best.py:97 | Writing `g` into the box slice keeps the shape. It changes no pixel outside the box, and pixel `(i, j)` inside it becomes `g[i-y0][j-x0]`. |
| Best.CropPaste | templates/stereo_disparity_best.py:97 | Reading the box slice back after writing `g` into it gives `g`. |
| Best.PasteCrop | templates/stereo_disparity_best.py:97 | Writing the box slice's own contents back changes nothing. |
| Best.PostFilter | templates/stereo_disparity_best.py:97 | A filter-and-write-back step fails only when the filtered array has the wrong shape. Otherwise it keeps every pixel outside the box, and the box then holds the filter applied to the old box contents. |
| Best.PostProcess | templates/stereo_disparity_best.py:97-98 | The median step followed by the percentile step cannot fail when both filters preserve shape. It leaves pixels outside the box unchanged and gives the box `percentile(median(box))`. |
| Best.PostProcessKeepsBounds | templates/stereo_disparity_best.py:97-98 | With filters whose outputs stay within their inputs' bounds, smoothing keeps the map within any bounds it already had. |
| Best.StereoDisparityBest | templates/stereo_disparity_best.py:4-105 | The best matcher never raises the `TypeError`, and it succeeds whenever both filters preserve shape. On success the map has the left image's shape and is 0 outside the box. The box holds both filters applied in turn to the searched values, and with rank filters every entry lies in `[0, maxd]`. |

## Left out

- Gradient magnitude (`compute_gradients`: Sobel, `sqrt`) and the `0.1 *` weighting are left out. They are floating-point computations. The gradient branch's score is the 6x6 intensity SAD plus a parameter `gradTerm(row, column, d)` that stands for `0.1 * ssd_grad`. The candidate set, guard and tie-break are modelled exactly.
- `median_filter` and `percentile_filter` are SciPy calls with their own boundary modes, so they are parameters `Image -> Image`. Properties that depend on them are stated under the assumption that they preserve shape or, for the bounds, that they are rank filters.
- Intensities are integers, not floats, so SAD is exact and there is no rounding. `np.inf` as the initial best score is modelled as "no score yet".
- The two example scripts are left out. They are image loading, bounding-box loading, the scorer and plotting, all of which is I/O.
- Bounding boxes that reach outside the image are excluded by a precondition. On such boxes numpy's negative indices and clipped slices decide the outcome:
  - A box starting just left of column 0 or just above row 0 gives empty windows. For columns, `left - right` raises `ValueError` at the first accepted `d`. For rows, every SAD is 0 and `Id[i, j]` writes to a row counted from the bottom.
  - A box starting further out gives full windows at wrapped positions. It writes to a wrapped pixel without any error.
  - A box reaching past the last row or column raises `IndexError` at `Id[i, j] = best_d`.
- Left and right images of different shapes are excluded by a precondition. The docstring requires both images to be m x n (templates/stereo_disparity_best.py:14-15). A larger right image would still run and read its extra pixels in the border windows. A smaller one would make the window subtraction broadcast or raise.
- Empty images are excluded. `np.pad(mode='edge')` rejects them.
- Best.StereoDisparityBest requires a non-empty bounding box. What SciPy's filters do on an empty sub-array is outside the model.
- Best.PostFilter treats any filtered array whose shape differs from the box slice as a failed write. numpy would instead broadcast an array of a compatible smaller shape, such as 1x1.
- The `isinstance(Id, np.ndarray)` half of the final check is not modelled. Only the shape is compared, since the map is always an array.
- Performance and parallelism of the pixel loops are not modelled. The source has none.

## Notes on the code's behaviour

- Sharpening pads with zeros (`mode='constant'`), so a uniform image does not stay uniform near its border after sharpening (Sharpening.Sharpen).
- On a uniform image pair the fast matcher stores `min(maxd, j)` at column `j`, not `maxd`, because candidates with `j + d < 0` are skipped (Matcher.UniformPixel, Fast.UniformPairFast).
- Identical left and right images do not give 0 everywhere. The stored value is `-d` for the first zero-score candidate `d <= 0` (Matcher.IdenticalPixel).
- The candidate range is `[-maxd, maxd)` as written. Magnitude `maxd` is reached through `d = -maxd`, so the stored values span the 0 to `maxd` inclusive that the best matcher's docstring describes (templates/stereo_disparity_best.py:18-19; Matcher.PixelValue bounds them by `[0, maxd]`). The positive shifts `1..maxd-1` are also scored, which the docstring does not mention.

=== FILE: best.dfy ===
/** `stereo_disparity_best`: sharpen both images, search with 7x7 windows (or
    the gradient branch's 6x6 windows) over images edge-padded by 3, then
    smooth the bounding-box part of the map with a median and a percentile
    filter, leaving everything outside the box untouched. */
module Best {
  import opened Common
  import opened Grid
  import opened Sharpening
  import opened Matcher

  /** The box's rows and columns are in ascending order, so the slice
      `Id[y0:y1+1, x0:x1+1]` is not empty. */
  predicate NonEmpty(b: BBox) {
    b.xMin <= b.xMax && b.yMin <= b.yMax
  }

  function BoxHeight(b: BBox): int {
    b.yMax - b.yMin + 1
  }

  function BoxWidth(b: BBox): int {
    b.xMax - b.xMin + 1
  }

  /** `Id[bbox[1,0]:bbox[1,1]+1, bbox[0,0]:bbox[0,1]+1]`, read. */
  function Crop(id: Image, m: int, n: int, b: BBox): (s: Image)
    requires IsGrid(id, m, n) && Inside(b, m, n) && NonEmpty(b)
    ensures IsGrid(s, BoxHeight(b), BoxWidth(b))
    ensures forall r, c :: 0 <= r < BoxHeight(b) && 0 <= c < BoxWidth(b) ==>
              s[r][c] == id[b.yMin + r][b.xMin + c]
  {
    Slice(id, b.yMin, BoxHeight(b), b.xMin, BoxWidth(b))
  }

  /** One image row with columns xMin..xMax replaced by `part`. */
  function PasteRow(row: seq<int>, b: BBox, part: seq<int>): (s: seq<int>)
    requires 0 <= b.xMin <= b.xMax < |row| && |part| == BoxWidth(b)
    ensures |s| == |row|
    ensures forall c :: 0 <= c < |row| ==>
              s[c] == if b.xMin <= c <= b.xMax then part[c - b.xMin] else row[c]
  {
    row[..b.xMin] + part + row[b.xMax + 1..]
  }

  /** `Id[bbox[1,0]:bbox[1,1]+1, bbox[0,0]:bbox[0,1]+1] = g`: the rows above
      and below the box are kept, the rows through it are spliced. */
  function Paste(id: Image, m: int, n: int, b: BBox, g: Image): (s: Image)
    requires IsGrid(id, m, n) && Inside(b, m, n) && NonEmpty(b)
    requires IsGrid(g, BoxHeight(b), BoxWidth(b))
    ensures IsGrid(s, m, n)
    ensures forall i, j :: 0 <= i < m && 0 <= j < n ==>
              s[i][j] == if InBox(b, i, j) then g[i - b.yMin][j - b.xMin] else id[i][j]
  {
    id[..b.yMin]
    + seq(BoxHeight(b), k requires 0 <= k < BoxHeight(b) => PasteRow(id[b.yMin + k], b, g[k]))
    + id[b.yMax + 1..]
  }

  /** Reading back the box after writing `g` into it gives `g`. */
  lemma CropPaste(id: Image, m: int, n: int, b: BBox, g: Image)
    requires IsGrid(id, m, n) && Inside(b, m, n) && NonEmpty(b)
    requires IsGrid(g, BoxHeight(b), BoxWidth(b))
    ensures Crop(Paste(id, m, n, b, g), m, n, b) == g
  {
    GridExt(Crop(Paste(id, m, n, b, g), m, n, b), g, BoxHeight(b), BoxWidth(b));
  }

  /** Writing back the box's own contents changes nothing. */
  lemma PasteCrop(id: Image, m: int, n: int, b: BBox)
    requires IsGrid(id, m, n) && Inside(b, m, n) && NonEmpty(b)
    ensures Paste(id, m, n, b, Crop(id, m, n, b)) == id
  {
    GridExt(Paste(id, m, n, b, Crop(id, m, n, b)), id, m, n);
  }

  /** A filter that returns an array of its argument's shape, as
      `median_filter` and `percentile_filter` do. */
  ghost predicate ShapePreserving(f: Image -> Image) {
    forall g: Image, h: int, w: int :: IsGrid(g, h, w) ==> IsGrid(f(g), h, w)
  }

  /** A filter whose outputs stay within any bounds its input respects, as a
      rank filter (each output is one of the inputs) does. */
  ghost predicate BoundsPreserving(f: Image -> Image) {
    forall g: Image, lo: int, hi: int :: AllWithin(g, lo, hi) ==> AllWithin(f(g), lo, hi)
  }

  /** One smoothing step, `Id[y0:y1+1, x0:x1+1] = f(Id[y0:y1+1, x0:x1+1])`:
      filter the box's sub-array and write the result back in place. numpy refuses the write when the filtered
      array does not have the sub-array's shape. */
  function PostFilter(id: Image, m: int, n: int, b: BBox, f: Image -> Image): (r: Result<Image>)
    requires IsGrid(id, m, n) && Inside(b, m, n) && NonEmpty(b)
    ensures r.Failure? ==> r.error == BroadcastError
    ensures r.Failure? <==> !IsGrid(f(Crop(id, m, n, b)), BoxHeight(b), BoxWidth(b))
    ensures r.Success? ==> IsGrid(r.value, m, n)
    ensures r.Success? ==> forall i, j :: 0 <= i < m && 0 <= j < n && !InBox(b, i, j) ==>
                             r.value[i][j] == id[i][j]
    ensures r.Success? ==> Crop(r.value, m, n, b) == f(Crop(id, m, n, b))
  {
    var g := f(Crop(id, m, n, b));
    if IsGrid(g, BoxHeight(b), BoxWidth(b)) then
      CropPaste(id, m, n, b, g);
      Success(Paste(id, m, n, b, g))
    else
      Failure(BroadcastError)
  }

  /** Writing a sub-array within [lo, hi] into a map within [lo, hi] keeps
      the map within [lo, hi]. */
  lemma PasteWithin(id: Image, m: int, n: int, b: BBox, g: Image, lo: int, hi: int)
    requires IsGrid(id, m, n) && Inside(b, m, n) && NonEmpty(b)
    requires IsGrid(g, BoxHeight(b), BoxWidth(b))
    requires AllWithin(id, lo, hi) && AllWithin(g, lo, hi)
    ensures AllWithin(Paste(id, m, n, b, g), lo, hi)
  {
    var s := Paste(id, m, n, b, g);
    forall i, j | 0 <= i < m && 0 <= j < n
      ensures lo <= s[i][j] <= hi
    {
      if InBox(b, i, j) {
        assert s[i][j] == g[i - b.yMin][j - b.xMin];
      }
    }
  }

  /** `median_filter(..., size=13)`, then `percentile_filter(..., 40, size=17)`, each on
      the box's sub-array only. Pixels outside the box keep their values,
      whatever the filters compute, and a failure can only be a refused write. */
  function PostProcess(id: Image, m: int, n: int, b: BBox,
                       medianFilter: Image -> Image, percentileFilter: Image -> Image): (r: Result<Image>)
    requires IsGrid(id, m, n) && Inside(b, m, n) && NonEmpty(b)
    ensures r.Failure? ==> r.error == BroadcastError
    ensures ShapePreserving(medianFilter) && ShapePreserving(percentileFilter) ==> r.Success?
    ensures r.Success? ==> IsGrid(r.value, m, n)
    ensures r.Success? ==> forall i, j :: 0 <= i < m && 0 <= j < n && !InBox(b, i, j) ==>
                             r.value[i][j] == id[i][j]
    ensures r.Success? ==> Crop(r.value, m, n, b) == percentileFilter(medianFilter(Crop(id, m, n, b)))
  {
    match PostFilter(id, m, n, b, medianFilter)
    case Failure(e) => Failure(e)
    case Success(smoothed) => PostFilter(smoothed, m, n, b, percentileFilter)
  }

  /** With rank filters, smoothing keeps every bound the map already had. */
  lemma PostProcessKeepsBounds(id: Image, m: int, n: int, b: BBox,
                               medianFilter: Image -> Image, percentileFilter: Image -> Image,
                               lo: int, hi: int)
    requires IsGrid(id, m, n) && Inside(b, m, n) && NonEmpty(b)
    requires BoundsPreserving(medianFilter) && BoundsPreserving(percentileFilter)
    requires AllWithin(id, lo, hi)
    requires PostProcess(id, m, n, b, medianFilter, percentileFilter).Success?
    ensures AllWithin(PostProcess(id, m, n, b, medianFilter, percentileFilter).value, lo, hi)
  {
    var smoothed := PostFilter(id, m, n, b, medianFilter).value;
    var g1 := medianFilter(Crop(id, m, n, b));
    assert AllWithin(Crop(id, m, n, b), lo, hi);
    assert smoothed == Paste(id, m, n, b, g1);
    PasteWithin(id, m, n, b, g1, lo, hi);
    var g2 := percentileFilter(Crop(smoothed, m, n, b));
    assert AllWithin(Crop(smoothed, m, n, b), lo, hi);
    PasteWithin(smoothed, m, n, b, g2, lo, hi);
  }

  /** The search variant selected by the `gradient` flag. */
  function BestVariant(gradient: bool, gradTerm: (int, int, int) -> int): Variant {
    if gradient then BestGradient(gradTerm) else BestBlock
  }

  /** The sharpened image padded by `half_window`, `np.pad(convolve(I, k), 3, mode='edge')`. */
  function BestPad(a: Image): (p: Image)
    requires WellFormed(a)
    ensures Padded(BestBlock, p, Height(a), Width(a))
    ensures EdgePadded(p, Sharpen(a), 3)
  {
    var sharp := Sharpen(a);
    assert HalfWindow() == 3 && IsGrid(sharp, Height(a), Width(a));
    EdgePadIsEdgePadded(sharp, HalfWindow());
    EdgePad(sharp, HalfWindow())
  }

  /** The map after the search, before smoothing. */
  function BestRaw(il: Image, ir: Image, b: BBox, maxd: int,
                   gradient: bool, gradTerm: (int, int, int) -> int): (id: Image)
    requires WellFormed(il) && SameShape(il, ir)
    ensures IsGrid(id, Height(il), Width(il))
  {
    RawMap(BestVariant(gradient, gradTerm), BestPad(il), BestPad(ir),
           Height(il), Width(il), b, maxd)
  }

  /** The whole best matcher. Whatever the filters are, the map has the left
      image's shape and is 0 outside the box, and the box holds the two
      filters applied in turn to the searched values; the `TypeError` is never
      raised, and with shape-preserving filters nothing fails at all. With rank
      filters every entry stays in [0, maxd]. */
  method StereoDisparityBest(il: Image, ir: Image, b: BBox, maxd: int,
                             gradient: bool, gradTerm: (int, int, int) -> int,
                             medianFilter: Image -> Image, percentileFilter: Image -> Image)
    returns (r: Result<Image>)
    requires WellFormed(il) && SameShape(il, ir)
    requires Inside(b, Height(il), Width(il)) && NonEmpty(b)
    ensures r.Failure? ==> r.error == BroadcastError
    ensures ShapePreserving(medianFilter) && ShapePreserving(percentileFilter) ==> r.Success?
    ensures r.Success? ==> IsGrid(r.value, Height(il), Width(il))
    ensures r.Success? ==> forall i, j :: 0 <= i < Height(il) && 0 <= j < Width(il) && !InBox(b, i, j) ==>
                             r.value[i][j] == 0
    ensures r.Success? ==>
              Crop(r.value, Height(il), Width(il), b)
              == percentileFilter(medianFilter(
                   Crop(BestRaw(il, ir, b, maxd, gradient, gradTerm), Height(il), Width(il), b)))
    ensures r.Success? && BoundsPreserving(medianFilter) && BoundsPreserving(percentileFilter) ==>
              AllWithin(r.value, 0, Max(0, maxd))
  {
    var m, n := Height(il), Width(il);
    var mt := BestVariant(gradient, gradTerm);
    var padL := BestPad(il);
    var padR := BestPad(ir);
    var id := MatchBox(mt, padL, padR, m, n, b, maxd);
    var smoothed := PostProcess(id, m, n, b, medianFilter, percentileFilter);
    if smoothed.Failure? {
      r := smoothed;
    } else {
      if BoundsPreserving(medianFilter) && BoundsPreserving(percentileFilter) {
        PostProcessKeepsBounds(id, m, n, b, medianFilter, percentileFilter, 0, Max(0, maxd));
      }
      r := ShapeCheck(smoothed.value, il);
    }
  }
}

=== FILE: candidates.dfy ===
/** The disparities a pixel is scored at: `range(-maxd, maxd)`, minus every
    `d` whose shifted column `j + d` leaves the image. */
module Disparities {
  import opened Common

  /** Python's `range(lo, hi)`. */
  function Range(lo: int, hi: int): (s: seq<int>)
    ensures |s| == Max(0, hi - lo)
    ensures forall k :: 0 <= k < |s| ==> s[k] == lo + k
  {
    seq(Max(0, hi - lo), k => lo + k)
  }

  lemma RangeMembers(lo: int, hi: int)
    ensures forall d :: d in Range(lo, hi) <==> lo <= d < hi
  {
    var s := Range(lo, hi);
    forall d | lo <= d < hi
      ensures d in s
    {
      assert s[d - lo] == d;
    }
  }

  /** Column `j + d` of the right image exists in an image `n` columns wide. */
  predicate Valid(j: int, d: int, n: int) {
    0 <= j + d < n
  }

  /** `[d]` when the guard accepts `d`, otherwise nothing. */
  function Keep(j: int, d: int, n: int): seq<int> {
    if Valid(j, d, n) then [d] else []
  }

  /** The candidates of `ds`, in order, that survive the bounds guard. */
  function FilterValid(ds: seq<int>, j: int, n: int): (s: seq<int>)
    ensures |s| <= |ds|
  {
    if |ds| == 0 then [] else Keep(j, ds[0], n) + FilterValid(ds[1..], j, n)
  }

  /** Filtering keeps exactly the valid members. */
  lemma {:induction false} FilterValidMembers(ds: seq<int>, j: int, n: int)
    ensures forall d :: d in FilterValid(ds, j, n) <==> d in ds && Valid(j, d, n)
  {
    if |ds| > 0 {
      FilterValidMembers(ds[1..], j, n);
      assert ds == [ds[0]] + ds[1..];
    }
  }

  /** Appending one candidate to the scan appends it to the filtered list
      exactly when it is valid. */
  lemma {:induction false} FilterValidSnoc(ds: seq<int>, d: int, j: int, n: int)
    ensures FilterValid(ds + [d], j, n) == FilterValid(ds, j, n) + Keep(j, d, n)
  {
    var xs := ds + [d];
    if |ds| == 0 {
      assert xs == [d] && xs[1..] == [];
      calc {
        FilterValid(xs, j, n);
        Keep(j, d, n) + FilterValid([], j, n);
        FilterValid(ds, j, n) + Keep(j, d, n);
      }
    } else {
      assert xs[0] == ds[0] && xs[1..] == ds[1..] + [d];
      FilterValidSnoc(ds[1..], d, j, n);
      calc {
        FilterValid(xs, j, n);
        Keep(j, ds[0], n) + FilterValid(ds[1..] + [d], j, n);
        Keep(j, ds[0], n) + (FilterValid(ds[1..], j, n) + Keep(j, d, n));
        (Keep(j, ds[0], n) + FilterValid(ds[1..], j, n)) + Keep(j, d, n);
        FilterValid(ds, j, n) + Keep(j, d, n);
      }
    }
  }

  lemma RangeSnoc(lo: int, hi: int)
    requires lo <= hi
    ensures Range(lo, hi + 1) == Range(lo, hi) + [hi]
  {
    var s, t := Range(lo, hi + 1), Range(lo, hi) + [hi];
    assert |s| == |t|;
    assert forall k :: 0 <= k < |s| ==> s[k] == t[k];
  }

  /** The candidates scored at column `j` of an `n`-column image, in scan order. */
  function Candidates(j: int, n: int, maxd: int): (s: seq<int>)
    ensures forall d :: d in s <==> -maxd <= d < maxd && Valid(j, d, n)
  {
    RangeMembers(-maxd, maxd);
    FilterValidMembers(Range(-maxd, maxd), j, n);
    FilterValid(Range(-maxd, maxd), j, n)
  }

  /** Filtering a range by the bounds guard cuts it to a sub-interval. */
  lemma {:induction false} FilterRange(lo: int, hi: int, j: int, n: int)
    decreases hi - lo
    ensures FilterValid(Range(lo, hi), j, n) == Range(Max(lo, -j), Min(hi, n - j))
  {
    var s := Range(lo, hi);
    if lo < hi {
      assert s[0] == lo && s[1..] == Range(lo + 1, hi);
      FilterRange(lo + 1, hi, j, n);
      assert FilterValid(s, j, n) == Keep(j, lo, n) + Range(Max(lo + 1, -j), Min(hi, n - j));
      if Valid(j, lo, n) {
        var t := Range(lo, Min(hi, n - j));
        assert t[0] == lo && t[1..] == Range(lo + 1, Min(hi, n - j));
        assert t == [lo] + t[1..];
      } else {
        assert Range(Max(lo + 1, -j), Min(hi, n - j)) == Range(Max(lo, -j), Min(hi, n - j));
      }
    } else {
      assert s == [];
    }
  }

  /** The candidate list is the interval [max(-maxd, -j), min(maxd, n - j)),
      scanned in increasing order. */
  lemma CandidatesInterval(j: int, n: int, maxd: int)
    ensures Candidates(j, n, maxd) == Range(Max(-maxd, -j), Min(maxd, n - j))
  {
    FilterRange(-maxd, maxd, j, n);
  }

  /** For a pixel inside the image and `maxd >= 1` there is always a candidate
      (d = 0 is one), and the first one scanned is max(-maxd, -j). */
  lemma FirstCandidate(j: int, n: int, maxd: int)
    requires 0 <= j < n && maxd >= 1
    ensures |Candidates(j, n, maxd)| > 0
    ensures Candidates(j, n, maxd)[0] == Max(-maxd, -j)
    ensures Abs(Candidates(j, n, maxd)[0]) == Min(maxd, j)
  {
    CandidatesInterval(j, n, maxd);
  }

  /** Candidates appear in strictly increasing order. */
  lemma CandidatesIncreasing(j: int, n: int, maxd: int)
    ensures forall a, b :: 0 <= a < b < |Candidates(j, n, maxd)| ==>
              Candidates(j, n, maxd)[a] < Candidates(j, n, maxd)[b]
  {
    CandidatesInterval(j, n, maxd);
  }
}

=== FILE: common.dfy ===
/** Small shared vocabulary: optional values, the two ways a disparity
    computation can fail, and the integer helpers used for index arithmetic. */
module Common {

  datatype Option<T> = None | Some(value: T)

  /** The failures the matchers can surface.
      ShapeError is the `TypeError("Wrong type or size returned!")` raised by the
      final shape check; BroadcastError is numpy refusing to assign a filtered
      sub-array whose shape differs from the bounding-box slice it replaces. */
  datatype Error = ShapeError | BroadcastError

  datatype Result<T> = Success(value: T) | Failure(error: Error)

  function Abs(x: int): (r: nat)
    ensures r == x || r == -x
  {
    if x < 0 then -x else x
  }

  function Min(a: int, b: int): (r: int)
    ensures r <= a && r <= b && (r == a || r == b)
  {
    if a <= b then a else b
  }

  function Max(a: int, b: int): (r: int)
    ensures r >= a && r >= b && (r == a || r == b)
  {
    if a >= b then a else b
  }

  /** `x` moved into the closed interval [lo, hi]. */
  function Clamp(x: int, lo: int, hi: int): (r: int)
    requires lo <= hi
    ensures lo <= r <= hi
    ensures lo <= x <= hi ==> r == x
  {
    if x < lo then lo else if x > hi then hi else x
  }
}

=== FILE: fast.dfy ===
/** `stereo_disparity_fast`: 20x20 windows over images edge-padded by 10. */
module Fast {
  import opened Common
  import opened Grid
  import opened Matcher

  /** The padding of the fast matcher, `np.pad(I, 10, mode='edge')`. */
  function FastPad(a: Image): (p: Image)
    requires WellFormed(a)
    ensures Padded(FastBlock, p, Height(a), Width(a))
    ensures EdgePadded(p, a, 10)
  {
    EdgePad(a, PadWidth(FastBlock))
  }

  /** The whole fast matcher. The result is never the `TypeError`: the map has
      the left image's shape, is 0 outside the bounding box, holds the scanned
      value at every pixel inside it, and every entry lies in [0, maxd]. */
  method StereoDisparityFast(il: Image, ir: Image, b: BBox, maxd: int) returns (r: Result<Image>)
    requires WellFormed(il) && SameShape(il, ir)
    requires Inside(b, Height(il), Width(il))
    ensures r.Success?
    ensures IsGrid(r.value, Height(il), Width(il))
    ensures forall i, j :: 0 <= i < Height(il) && 0 <= j < Width(il) && !InBox(b, i, j) ==>
              r.value[i][j] == 0
    ensures forall i, j :: 0 <= i < Height(il) && 0 <= j < Width(il) && InBox(b, i, j) ==>
              r.value[i][j] == PixelValue(FastBlock, FastPad(il), FastPad(ir),
                                          Height(il), Width(il), i, j, maxd)
    ensures AllWithin(r.value, 0, Max(0, maxd))
  {
    var m, n := Height(il), Width(il);
    var padL := FastPad(il);
    var padR := FastPad(ir);
    var id := MatchBox(FastBlock, padL, padR, m, n, b, maxd);
    r := ShapeCheck(id, il);
  }

  /** A uniform image pair: every candidate's SAD is 0, so each pixel of the
      box stores min(maxd, j), the magnitude of the first candidate scanned. */
  lemma UniformPairFast(il: Image, ir: Image, maxd: int, v: int, i: int, j: int)
    requires WellFormed(il) && SameShape(il, ir)
    requires IsConstant(il, v) && IsConstant(ir, v) && maxd >= 1
    requires 0 <= i < Height(il) && 0 <= j < Width(il)
    ensures PixelValue(FastBlock, FastPad(il), FastPad(ir), Height(il), Width(il), i, j, maxd)
            == Min(maxd, j)
  {
    EdgePadConstant(il, PadWidth(FastBlock), v);
    EdgePadConstant(ir, PadWidth(FastBlock), v);
    UniformPixel(FastBlock, FastPad(il), FastPad(ir), Height(il), Width(il), i, j, maxd, v);
  }
}

=== FILE: grid.dfy ===
/** Two-dimensional integer images: shape, edge-replication padding
    (`np.pad(I, p, mode='edge')`), rectangular windows (`I[r:r+h, c:c+w]`) and
    the sum of absolute differences between two windows of equal shape. */
module Grid {
  import opened Common

  /** Row-major image; entry `a[r][c]` is row `r`, column `c`. */
  type Image = seq<seq<int>>

  /** `a` is an `m` by `n` rectangle. */
  predicate IsGrid(a: Image, m: int, n: int) {
    |a| == m && forall r :: 0 <= r < m ==> |a[r]| == n
  }

  function Height(a: Image): nat {
    |a|
  }

  function Width(a: Image): nat {
    if |a| == 0 then 0 else |a[0]|
  }

  /** A non-empty rectangular image, the kind `np.pad(..., mode='edge')` accepts. */
  predicate WellFormed(a: Image) {
    Height(a) > 0 && Width(a) > 0 && IsGrid(a, Height(a), Width(a))
  }

  predicate SameShape(a: Image, b: Image) {
    IsGrid(b, Height(a), Width(a))
  }

  /** Every entry of `a` equals `v`. */
  predicate IsConstant(a: Image, v: int) {
    forall r, c :: 0 <= r < |a| && 0 <= c < |a[r]| ==> a[r][c] == v
  }

  /** Every entry of `a` lies in [lo, hi]. */
  predicate AllWithin(a: Image, lo: int, hi: int) {
    forall r, c :: 0 <= r < |a| && 0 <= c < |a[r]| ==> lo <= a[r][c] <= hi
  }

  /** `np.zeros((m, n))`. */
  function Zeros(m: nat, n: nat): (z: Image)
    ensures IsGrid(z, m, n) && IsConstant(z, 0)
  {
    seq(m, _ => seq(n, _ => 0))
  }

  /** Two rectangles of the same shape with the same entries are the same image. */
  lemma GridExt(a: Image, b: Image, m: int, n: int)
    requires IsGrid(a, m, n) && IsGrid(b, m, n)
    requires forall r, c :: 0 <= r < m && 0 <= c < n ==> a[r][c] == b[r][c]
    ensures a == b
  {
    forall r | 0 <= r < m
      ensures a[r] == b[r]
    {
      assert forall c :: 0 <= c < n ==> a[r][c] == b[r][c];
    }
  }

  function Repeat<T>(x: T, k: nat): (s: seq<T>)
    ensures |s| == k && forall i :: 0 <= i < k ==> s[i] == x
  {
    seq(k, _ => x)
  }

  /** One row padded by `p` copies of its first and of its last entry. */
  function PadRow(row: seq<int>, p: nat): (s: seq<int>)
    requires |row| > 0
    ensures |s| == |row| + 2 * p
    ensures forall c :: 0 <= c < |s| ==> s[c] == row[Clamp(c - p, 0, |row| - 1)]
  {
    Repeat(row[0], p) + row + Repeat(row[|row| - 1], p)
  }

  /** `np.pad(a, p, mode='edge')`: every row is edge-padded, then `p` copies of
      the first and of the last padded row are stacked above and below. */
  function EdgePad(a: Image, p: nat): (s: Image)
    requires WellFormed(a)
    ensures IsGrid(s, Height(a) + 2 * p, Width(a) + 2 * p)
    ensures forall r, c :: 0 <= r < |s| && 0 <= c < |s[r]| ==>
              s[r][c] == a[Clamp(r - p, 0, Height(a) - 1)][Clamp(c - p, 0, Width(a) - 1)]
  {
    var rows := seq(|a|, k requires 0 <= k < |a| => PadRow(a[k], p));
    Repeat(rows[0], p) + rows + Repeat(rows[|a| - 1], p)
  }

  /** `s` is `a` edge-padded by `p`: each entry repeats the nearest pixel of `a`. */
  predicate EdgePadded(s: Image, a: Image, p: nat)
    requires WellFormed(a)
  {
    && IsGrid(s, Height(a) + 2 * p, Width(a) + 2 * p)
    && forall r, c :: 0 <= r < |s| && 0 <= c < |s[r]| ==>
         s[r][c] == a[Clamp(r - p, 0, Height(a) - 1)][Clamp(c - p, 0, Width(a) - 1)]
  }

  lemma EdgePadIsEdgePadded(a: Image, p: nat)
    requires WellFormed(a)
    ensures EdgePadded(EdgePad(a, p), a, p)
  {
  }

  /** The interior of the padded array is the original image. */
  lemma EdgePadInterior(a: Image, p: nat)
    requires WellFormed(a)
    ensures forall r, c :: 0 <= r < Height(a) && 0 <= c < Width(a) ==>
              EdgePad(a, p)[r + p][c + p] == a[r][c]
  {
  }

  /** Edge replication of a constant image is constant. */
  lemma EdgePadConstant(a: Image, p: nat, v: int)
    requires WellFormed(a) && IsConstant(a, v)
    ensures IsConstant(EdgePad(a, p), v)
  {
  }

  /** `a[r0:r0+h, c0:c0+w]` for a window that lies inside `a`. */
  function Slice(a: Image, r0: int, h: nat, c0: int, w: nat): (s: Image)
    requires 0 <= r0 && r0 + h <= |a|
    requires 0 <= c0 && forall r :: r0 <= r < r0 + h ==> c0 + w <= |a[r]|
    ensures IsGrid(s, h, w)
    ensures forall r, c :: 0 <= r < h && 0 <= c < w ==> s[r][c] == a[r0 + r][c0 + c]
  {
    seq(h, r requires 0 <= r < h => a[r0 + r][c0 .. c0 + w])
  }

  /** A window of the edge-padded image reads the original image at clamped
      coordinates: entry (u, v) of `pad[i:i+h, j:j+w]` is pixel
      (i - p + u, j - p + v) of `a`, moved to the nearest border pixel. */
  lemma WindowOfPad(a: Image, p: nat, i: int, h: nat, j: int, w: nat)
    requires WellFormed(a)
    requires 0 <= i && i + h <= Height(a) + 2 * p
    requires 0 <= j && j + w <= Width(a) + 2 * p
    ensures forall u, v :: 0 <= u < h && 0 <= v < w ==>
              Slice(EdgePad(a, p), i, h, j, w)[u][v]
              == a[Clamp(i - p + u, 0, Height(a) - 1)][Clamp(j - p + v, 0, Width(a) - 1)]
  {
  }

  function RowSad(u: seq<int>, v: seq<int>): (s: int)
    requires |u| == |v|
    ensures s >= 0
  {
    if |u| == 0 then 0 else Abs(u[0] - v[0]) + RowSad(u[1..], v[1..])
  }

  /** `np.sum(np.abs(x - y))` for two windows of the same shape. */
  function Sad(x: Image, y: Image): (s: int)
    requires IsGrid(x, Height(x), Width(x)) && SameShape(x, y)
    ensures s >= 0
  {
    if |x| == 0 then 0
    else
      assert |x| == 1 || Width(x[1..]) == Width(x);
      RowSad(x[0], y[0]) + Sad(x[1..], y[1..])
  }

  lemma {:induction false} RowSadZeroIff(u: seq<int>, v: seq<int>)
    requires |u| == |v|
    ensures RowSad(u, v) == 0 <==> u == v
  {
    if |u| > 0 {
      RowSadZeroIff(u[1..], v[1..]);
      if RowSad(u, v) == 0 {
        assert u == [u[0]] + u[1..] && v == [v[0]] + v[1..];
      }
    }
  }

  /** The SAD of two windows is zero exactly when the windows are equal. */
  lemma {:induction false} SadZeroIff(x: Image, y: Image)
    requires IsGrid(x, Height(x), Width(x)) && SameShape(x, y)
    ensures Sad(x, y) == 0 <==> x == y
  {
    if |x| > 0 {
      assert |x| == 1 || Width(x[1..]) == Width(x);
      RowSadZeroIff(x[0], y[0]);
      SadZeroIff(x[1..], y[1..]);
      if Sad(x, y) == 0 {
        assert x == [x[0]] + x[1..] && y == [y[0]] + y[1..];
      }
    }
  }

  /** Two same-shape windows whose entries are all `v` have SAD zero. */
  lemma SadOfConstants(x: Image, y: Image, h: nat, w: nat, v: int)
    requires IsGrid(x, h, w) && IsGrid(y, h, w)
    requires IsConstant(x, v) && IsConstant(y, v)
    ensures IsGrid(x, Height(x), Width(x)) && SameShape(x, y) && Sad(x, y) == 0
  {
    GridExt(x, y, h, w);
    SadZeroIff(x, y);
  }
}

=== FILE: matcher.dfy ===
/** The block-matching search shared by both matchers: for every pixel of the
    inclusive bounding box, score every valid candidate disparity by comparing
    a window of the padded left image with a window of the padded right image
    shifted by `d` columns, keep the first strict minimum, store `abs(d)`. */
module Matcher {
  import opened Common
  import opened Grid
  import opened Disparities
  import opened Selection

  /** The 2x2 `bbox` array: `bbox[0, 0]`, `bbox[0, 1]` are the first and last
      column, `bbox[1, 0]`, `bbox[1, 1]` the first and last row, all inclusive. */
  datatype BBox = BBox(xMin: int, xMax: int, yMin: int, yMax: int)

  /** Pixel (row `i`, column `j`) is visited by the pixel loops. */
  predicate InBox(b: BBox, i: int, j: int) {
    b.yMin <= i <= b.yMax && b.xMin <= j <= b.xMax
  }

  /** Every pixel the loops visit lies in an `m` by `n` image. */
  predicate Inside(b: BBox, m: int, n: int) {
    0 <= b.xMin && b.xMax < n && 0 <= b.yMin && b.yMax < m
  }

  /** The three search variants: the fast matcher, the best matcher's
      intensity branch, and its gradient branch, whose score adds an integer
      stand-in for `0.1 * ssd_grad` at (row, column, d). */
  datatype Variant =
    | FastBlock
    | BestBlock
    | BestGradient(gradTerm: (int, int, int) -> int)

  /** `window_size // 2` of the best matcher. */
  function HalfWindow(): nat {
    7 / 2
  }

  /** Side of the square window compared at each candidate: 20 in the fast
      matcher, 7 in the best matcher, `2 * hw` = 6 in `compute_sad`. */
  function WindowSize(mt: Variant): nat {
    match mt
    case FastBlock => 20
    case BestBlock => 7
    case BestGradient(_) => 2 * HalfWindow()
  }

  /** Width of the edge padding applied to both images. */
  function PadWidth(mt: Variant): nat {
    match mt
    case FastBlock => 10
    case _ => HalfWindow()
  }

  /** The fast matcher's bounds guard, as written, with `new_width` the
      padded width; it holds exactly when column `j + d` is in the image. */
  function FastGuard(j: int, d: int, newWidth: int): (ok: bool)
    ensures ok <==> Valid(j, d, newWidth - 20)
  {
    (j + d + 10) < (newWidth - 10) && (j + d + 10) > 9
  }

  /** The best matcher's intensity-branch guard, as written. */
  function BestGuard(j: int, d: int, newWidth: int, hw: int): (ok: bool)
    ensures ok <==> Valid(j, d, newWidth - 2 * hw)
  {
    (hw - 1) < (j + d + hw) < (newWidth - hw)
  }

  /** The best matcher's gradient-branch guard, as written, with
      `width = Il.shape[1]`. */
  function GradientGuard(x: int, d: int, width: int): bool {
    0 <= x + d < width
  }

  function Guard(mt: Variant, j: int, d: int, n: int, newWidth: int): bool {
    match mt
    case FastBlock => FastGuard(j, d, newWidth)
    case BestBlock => BestGuard(j, d, newWidth, HalfWindow())
    case BestGradient(_) => GradientGuard(j, d, n)
  }

  /** The three guards coincide: on padded width `n + 2 * pad` each one
      accepts `d` exactly when `0 <= j + d < n`. */
  lemma GuardsAgree(mt: Variant, j: int, d: int, n: int)
    ensures Guard(mt, j, d, n, n + 2 * PadWidth(mt)) <==> 0 <= j + d < n
    ensures FastGuard(j, d, n + 20) <==> BestGuard(j, d, n + 6, 3)
    ensures BestGuard(j, d, n + 6, 3) <==> GradientGuard(j, d, n)
  {
  }

  predicate Padded(mt: Variant, pad: Image, m: int, n: int) {
    IsGrid(pad, m + 2 * PadWidth(mt), n + 2 * PadWidth(mt))
  }

  /** Both padded images of an `m` by `n` pair are ready for the search. */
  predicate Setup(mt: Variant, padL: Image, padR: Image, m: int, n: int) {
    m > 0 && n > 0 && Padded(mt, padL, m, n) && Padded(mt, padR, m, n)
  }

  /** Under the guard, both windows `pad[i:i+w, j:j+w]` and
      `pad[i:i+w, j+d:j+d+w]` lie inside the padded image. */
  lemma GuardedWindowsInRange(mt: Variant, m: int, n: int, i: int, j: int, d: int)
    requires 0 <= i < m && 0 <= j < n
    requires Guard(mt, j, d, n, n + 2 * PadWidth(mt))
    ensures 0 <= i && i + WindowSize(mt) <= m + 2 * PadWidth(mt)
    ensures 0 <= j && j + WindowSize(mt) <= n + 2 * PadWidth(mt)
    ensures 0 <= j + d && j + d + WindowSize(mt) <= n + 2 * PadWidth(mt)
  {
  }

  /** The window whose top-left corner is padded pixel (i, c). */
  function Window(mt: Variant, pad: Image, m: int, n: int, i: int, c: int): (w: Image)
    requires Padded(mt, pad, m, n) && 0 <= i < m && 0 <= c < n
    ensures IsGrid(w, WindowSize(mt), WindowSize(mt))
    ensures forall u, v :: 0 <= u < WindowSize(mt) && 0 <= v < WindowSize(mt) ==>
              w[u][v] == pad[i + u][c + v]
  {
    Slice(pad, i, WindowSize(mt), c, WindowSize(mt))
  }

  /** The windows read the original image at clamped coordinates starting
      `PadWidth` rows and columns before the pixel: rows i-10..i+9 in the fast
      matcher, the centred rows i-3..i+3 in the best matcher's intensity branch,
      rows i-3..i+2 in `compute_sad`. */
  lemma WindowReadsOriginal(mt: Variant, a: Image, i: int, c: int)
    requires WellFormed(a) && 0 <= i < Height(a) && 0 <= c < Width(a)
    ensures var w := Window(mt, EdgePad(a, PadWidth(mt)), Height(a), Width(a), i, c);
            forall u, v :: 0 <= u < WindowSize(mt) && 0 <= v < WindowSize(mt) ==>
              w[u][v] == a[Clamp(i - PadWidth(mt) + u, 0, Height(a) - 1)]
                          [Clamp(c - PadWidth(mt) + v, 0, Width(a) - 1)]
  {
    WindowOfPad(a, PadWidth(mt), i, WindowSize(mt), c, WindowSize(mt));
  }

  /** In the best matcher's intensity branch the window is centred: its middle
      entry is the pixel itself. */
  lemma BestWindowCentred(a: Image, i: int, c: int)
    requires WellFormed(a) && 0 <= i < Height(a) && 0 <= c < Width(a)
    ensures Window(BestBlock, EdgePad(a, HalfWindow()), Height(a), Width(a), i, c)
              [HalfWindow()][HalfWindow()] == a[i][c]
  {
    WindowReadsOriginal(BestBlock, a, i, c);
  }

  /** The score of candidate `d` at pixel (i, j): SAD of the two windows, plus
      the gradient term in the gradient branch. */
  function Score(mt: Variant, padL: Image, padR: Image, m: int, n: int, i: int, j: int, d: int): (s: int)
    requires Setup(mt, padL, padR, m, n) && 0 <= i < m && 0 <= j < n && Valid(j, d, n)
    ensures !mt.BestGradient? ==> 0 <= s
    ensures !mt.BestGradient? ==>
              (s == 0 <==> Window(mt, padL, m, n, i, j) == Window(mt, padR, m, n, i, j + d))
    ensures mt.BestGradient? ==> s - mt.gradTerm(i, j, d) >= 0
  {
    SadZeroIff(Window(mt, padL, m, n, i, j), Window(mt, padR, m, n, i, j + d));
    var s := Sad(Window(mt, padL, m, n, i, j), Window(mt, padR, m, n, i, j + d));
    match mt
    case BestGradient(g) => s + g(i, j, d)
    case _ => s
  }

  /** The scores of the candidates `ds`, in scan order. */
  function Scores(mt: Variant, padL: Image, padR: Image, m: int, n: int, i: int, j: int,
                  ds: seq<int>): (ss: seq<int>)
    requires Setup(mt, padL, padR, m, n) && 0 <= i < m && 0 <= j < n
    requires forall k :: 0 <= k < |ds| ==> Valid(j, ds[k], n)
    ensures |ss| == |ds|
  {
    seq(|ds|, k requires 0 <= k < |ds| => Score(mt, padL, padR, m, n, i, j, ds[k]))
  }

  /** The value the pixel loop stores at (i, j): `abs(d)` of the first
      candidate with the least score, or the initial 0 when no candidate was
      scored. It lies in [0, maxd], and is 0 whenever `maxd <= 0`. */
  function PixelValue(mt: Variant, padL: Image, padR: Image, m: int, n: int,
                      i: int, j: int, maxd: int): (v: int)
    requires Setup(mt, padL, padR, m, n) && 0 <= i < m && 0 <= j < n
    ensures 0 <= v && (maxd <= 0 ==> v == 0) && (maxd > 0 ==> v <= maxd)
  {
    var ds := Candidates(j, n, maxd);
    match FirstMin(Scores(mt, padL, padR, m, n, i, j, ds))
    case None => 0
    case Some(k) => Abs(ds[k])
  }

  /** The disparity map the pixel loops produce, stated pixel by pixel. */
  function RawMap(mt: Variant, padL: Image, padR: Image, m: int, n: int, b: BBox, maxd: int): (id: Image)
    requires Setup(mt, padL, padR, m, n)
    ensures IsGrid(id, m, n)
  {
    seq(m, i requires 0 <= i < m =>
      seq(n, j requires 0 <= j < n =>
        if InBox(b, i, j) then PixelValue(mt, padL, padR, m, n, i, j, maxd) else 0))
  }

  /** The candidates the scan has accepted before reaching `d`. */
  function Accepted(j: int, n: int, maxd: int, d: int): (ds: seq<int>)
    ensures forall k :: 0 <= k < |ds| ==> Valid(j, ds[k], n)
  {
    FilterValidMembers(Range(-maxd, d), j, n);
    FilterValid(Range(-maxd, d), j, n)
  }

  lemma AcceptedStep(j: int, n: int, maxd: int, d: int)
    requires -maxd <= d
    ensures Accepted(j, n, maxd, d + 1)
            == Accepted(j, n, maxd, d) + (if Valid(j, d, n) then [d] else [])
  {
    RangeSnoc(-maxd, d);
    FilterValidSnoc(Range(-maxd, d), d, j, n);
  }

  lemma ScoresSnoc(mt: Variant, padL: Image, padR: Image, m: int, n: int, i: int, j: int,
                   ds: seq<int>, d: int)
    requires Setup(mt, padL, padR, m, n) && 0 <= i < m && 0 <= j < n
    requires forall k :: 0 <= k < |ds| ==> Valid(j, ds[k], n)
    requires Valid(j, d, n)
    ensures Scores(mt, padL, padR, m, n, i, j, ds + [d])
            == Scores(mt, padL, padR, m, n, i, j, ds) + [Score(mt, padL, padR, m, n, i, j, d)]
  {
  }

  /** The loop variables `best_score` (None standing for `np.inf`) and
      `best_d` after the candidates `ds` with scores `ss` were scanned. */
  predicate Tracks(bestScore: Option<int>, bestD: int, ds: seq<int>, ss: seq<int>)
    requires |ds| == |ss|
  {
    match FirstMin(ss)
    case None => bestScore.None? && bestD == 0
    case Some(k) => bestScore == Some(ss[k]) && bestD == Abs(ds[k])
  }

  /** One guarded, scored candidate updates the loop variables so that they
      keep tracking the first strict minimum. */
  lemma TracksStep(bestScore: Option<int>, bestD: int, ds: seq<int>, ss: seq<int>, d: int, s: int)
    requires |ds| == |ss| && Tracks(bestScore, bestD, ds, ss)
    ensures if bestScore.None? || s < bestScore.value
            then Tracks(Some(s), Abs(d), ds + [d], ss + [s])
            else Tracks(bestScore, bestD, ds + [d], ss + [s])
  {
    FirstMinSnoc(ss, s);
    var ds', ss' := ds + [d], ss + [s];
    assert ds'[|ds|] == d && ss'[|ss|] == s;
    match FirstMin(ss)
    case None =>
    case Some(k) =>
      assert ds'[k] == ds[k] && ss'[k] == ss[k];
  }

  /** The scores of the candidates accepted before reaching `d`. */
  function Scanned(mt: Variant, padL: Image, padR: Image, m: int, n: int,
                   i: int, j: int, maxd: int, d: int): (ss: seq<int>)
    requires Setup(mt, padL, padR, m, n) && 0 <= i < m && 0 <= j < n
    ensures |ss| == |Accepted(j, n, maxd, d)|
  {
    Scores(mt, padL, padR, m, n, i, j, Accepted(j, n, maxd, d))
  }

  /** The loop body's effect on (`best_score`, `best_d`) at candidate `d`:
      nothing when the guard rejects `d`, otherwise `d` is taken exactly when
      it is the first scored or strictly better. */
  predicate Stepped(valid: bool, score: int, d: int,
                    bestScore: Option<int>, bestD: int, bestScore': Option<int>, bestD': int) {
    if valid && (bestScore.None? || score < bestScore.value)
    then bestScore' == Some(score) && bestD' == Abs(d)
    else bestScore' == bestScore && bestD' == bestD
  }

  /** The disparity loop's invariant before candidate `d`. */
  predicate ScanInvariant(mt: Variant, padL: Image, padR: Image, m: int, n: int,
                          i: int, j: int, maxd: int, d: int, bestScore: Option<int>, bestD: int)
    requires Setup(mt, padL, padR, m, n) && 0 <= i < m && 0 <= j < n
  {
    Tracks(bestScore, bestD, Accepted(j, n, maxd, d), Scanned(mt, padL, padR, m, n, i, j, maxd, d))
  }

  /** One iteration of the disparity loop at candidate `d` keeps the loop
      variables tracking the first strict minimum of the candidates scanned. */
  lemma ScanStep(mt: Variant, padL: Image, padR: Image, m: int, n: int,
                 i: int, j: int, maxd: int, d: int, d': int, score: int,
                 bestScore: Option<int>, bestD: int, bestScore': Option<int>, bestD': int)
    requires Setup(mt, padL, padR, m, n) && 0 <= i < m && 0 <= j < n && -maxd <= d && d' == d + 1
    requires Valid(j, d, n) ==> score == Score(mt, padL, padR, m, n, i, j, d)
    requires ScanInvariant(mt, padL, padR, m, n, i, j, maxd, d, bestScore, bestD)
    requires Stepped(Valid(j, d, n), score, d, bestScore, bestD, bestScore', bestD')
    ensures ScanInvariant(mt, padL, padR, m, n, i, j, maxd, d', bestScore', bestD')
  {
    var ds := Accepted(j, n, maxd, d);
    var ss := Scanned(mt, padL, padR, m, n, i, j, maxd, d);
    AcceptedStep(j, n, maxd, d);
    if Valid(j, d, n) {
      assert Accepted(j, n, maxd, d + 1) == ds + [d];
      ScoresSnoc(mt, padL, padR, m, n, i, j, ds, d);
      assert Scanned(mt, padL, padR, m, n, i, j, maxd, d + 1) == ss + [score];
      TracksStep(bestScore, bestD, ds, ss, d, score);
    } else {
      assert Accepted(j, n, maxd, d + 1) == ds;
    }
  }

  /** The disparity loop of one pixel as the source writes it: candidates
      from `-maxd` up to `maxd - 1`, each guarded, scored, and taken when its
      score is strictly below the best so far. */
  method ScanPixel(mt: Variant, padL: Image, padR: Image, m: int, n: int,
                   i: int, j: int, maxd: int) returns (bestD: int)
    requires Setup(mt, padL, padR, m, n) && 0 <= i < m && 0 <= j < n
    ensures bestD == PixelValue(mt, padL, padR, m, n, i, j, maxd)
  {
    var newWidth := |padL[0]|;
    assert newWidth == n + 2 * PadWidth(mt);
    var bestScore: Option<int> := None;
    bestD := 0;
    var d := -maxd;
    while d < maxd
      invariant -maxd <= d && (d <= maxd || d == -maxd)
      invariant ScanInvariant(mt, padL, padR, m, n, i, j, maxd, d, bestScore, bestD)
    {
      ghost var d0, bestScore0, bestD0 := d, bestScore, bestD;
      ghost var score0 := 0;
      GuardsAgree(mt, j, d, n);
      assert Guard(mt, j, d, n, newWidth) <==> Valid(j, d, n);
      if Guard(mt, j, d, n, newWidth) {
        var score := Score(mt, padL, padR, m, n, i, j, d);
        score0 := score;
        if bestScore.None? || score < bestScore.value {
          bestScore := Some(score);
          bestD := Abs(d);
        }
      }
      d := d + 1;
      ScanStep(mt, padL, padR, m, n, i, j, maxd, d0, d, score0, bestScore0, bestD0, bestScore, bestD);
    }
    assert Range(-maxd, d) == Range(-maxd, maxd);
  }

  /** `Id = np.zeros(...)` followed by the two pixel loops over the box:
      store the scanned value at every pixel of the box, row by row. The
      result is the map described by `RawMap`. */
  method MatchBox(mt: Variant, padL: Image, padR: Image, m: int, n: int, b: BBox, maxd: int)
    returns (id: Image)
    requires Setup(mt, padL, padR, m, n) && Inside(b, m, n)
    ensures IsGrid(id, m, n)
    ensures forall i, j :: 0 <= i < m && 0 <= j < n && !InBox(b, i, j) ==> id[i][j] == 0
    ensures forall i, j :: 0 <= i < m && 0 <= j < n && InBox(b, i, j) ==>
              id[i][j] == PixelValue(mt, padL, padR, m, n, i, j, maxd)
    ensures AllWithin(id, 0, Max(0, maxd))
    ensures id == RawMap(mt, padL, padR, m, n, b, maxd)
  {
    id := Zeros(m, n);
    var i := b.yMin;
    while i <= b.yMax
      invariant b.yMin <= i && (i <= b.yMax + 1 || i == b.yMin)
      invariant IsGrid(id, m, n)
      invariant forall r, c :: 0 <= r < m && 0 <= c < n ==>
                  id[r][c] == (if r < i && InBox(b, r, c)
                               then PixelValue(mt, padL, padR, m, n, r, c, maxd) else 0)
    {
      var j := b.xMin;
      while j <= b.xMax
        invariant b.xMin <= j && (j <= b.xMax + 1 || j == b.xMin)
        invariant IsGrid(id, m, n)
        invariant forall r, c :: 0 <= r < m && 0 <= c < n ==>
                    id[r][c] == (if (r < i || (r == i && c < j)) && InBox(b, r, c)
                                 then PixelValue(mt, padL, padR, m, n, r, c, maxd) else 0)
      {
        var v := ScanPixel(mt, padL, padR, m, n, i, j, maxd);
        id := id[i := id[i][j := v]];
        j := j + 1;
      }
      i := i + 1;
    }
    GridExt(id, RawMap(mt, padL, padR, m, n, b, maxd), m, n);
  }

  /** On a pair of padded images that are constant and equal, every score of
      an intensity matcher is 0, so the first candidate scanned wins and the
      stored value is min(maxd, j), not maxd. */
  lemma UniformPixel(mt: Variant, padL: Image, padR: Image, m: int, n: int,
                     i: int, j: int, maxd: int, v: int)
    requires Setup(mt, padL, padR, m, n) && 0 <= i < m && 0 <= j < n
    requires !mt.BestGradient? && maxd >= 1
    requires IsConstant(padL, v) && IsConstant(padR, v)
    ensures forall d :: d in Candidates(j, n, maxd) ==> Score(mt, padL, padR, m, n, i, j, d) == 0
    ensures PixelValue(mt, padL, padR, m, n, i, j, maxd) == Min(maxd, j)
  {
    var ds := Candidates(j, n, maxd);
    var ss := Scores(mt, padL, padR, m, n, i, j, ds);
    forall d | d in ds
      ensures Score(mt, padL, padR, m, n, i, j, d) == 0
    {
      var x := Window(mt, padL, m, n, i, j);
      var y := Window(mt, padR, m, n, i, j + d);
      SadOfConstants(x, y, WindowSize(mt), WindowSize(mt), v);
    }
    assert forall k :: 0 <= k < |ss| ==> ss[k] == 0;
    FirstCandidate(j, n, maxd);
    AllTiedPicksFirst(ss, 0);
  }

  /** When both padded images are the same, the zero shift matches exactly,
      so the chosen candidate is one with a zero score at or before d = 0:
      the stored value is `-d` for such a `d`, not necessarily 0. */
  lemma IdenticalPixel(mt: Variant, pad: Image, m: int, n: int, i: int, j: int, maxd: int)
    requires Setup(mt, pad, pad, m, n) && 0 <= i < m && 0 <= j < n
    requires !mt.BestGradient? && maxd >= 1
    ensures exists d :: d in Candidates(j, n, maxd) && d <= 0
              && PixelValue(mt, pad, pad, m, n, i, j, maxd) == -d
              && Score(mt, pad, pad, m, n, i, j, d) == 0
  {
    var ds := Candidates(j, n, maxd);
    var ss := Scores(mt, pad, pad, m, n, i, j, ds);
    CandidatesInterval(j, n, maxd);
    var lo := Max(-maxd, -j);
    var k0 := -lo;
    assert ds[k0] == 0;
    var w := Window(mt, pad, m, n, i, j);
    SadZeroIff(w, w);
    assert ss[k0] == 0;
    var k := FirstMin(ss).value;
    assert k <= k0;
    assert ds[k] <= 0;
    assert ss[k] == 0 && Score(mt, pad, pad, m, n, i, j, ds[k]) == 0;
    assert ds[k] in ds;
  }

  /** The closing check `isinstance(Id, np.ndarray) and Id.shape == Il.shape`:
      a map of the wrong shape raises `TypeError`. */
  function ShapeCheck(id: Image, il: Image): (r: Result<Image>)
    ensures r.Success? ==> r.value == id && IsGrid(id, Height(il), Width(il))
    ensures r.Failure? ==> r.error == ShapeError && !IsGrid(id, Height(il), Width(il))
  {
    if IsGrid(id, Height(il), Width(il)) then Success(id) else Failure(ShapeError)
  }
}

=== FILE: selection.dfy ===
/** The argmin of the disparity loop: scores are visited in scan order and a
    later score replaces the current best only when it is strictly smaller
    (`if sad < best_score`, starting from `best_score = np.inf`). */
module Selection {
  import opened Common

  /** Position `k` holds a minimum of `ss`, and every earlier score is
      strictly larger: the first position where the minimum occurs. */
  predicate IsFirstMin(ss: seq<int>, k: int) {
    && 0 <= k < |ss|
    && (forall i :: 0 <= i < |ss| ==> ss[k] <= ss[i])
    && (forall i :: 0 <= i < k ==> ss[k] < ss[i])
  }

  /** The position the strict-`<` scan ends on; None when nothing was scored. */
  function FirstMin(ss: seq<int>): (r: Option<nat>)
    ensures r.None? <==> |ss| == 0
    ensures r.Some? ==> IsFirstMin(ss, r.value)
    ensures forall k :: IsFirstMin(ss, k) ==> r == Some(k)
  {
    if |ss| == 0 then None
    else
      var last := |ss| - 1;
      match FirstMin(ss[..last])
      case None => Some(0)
      case Some(k) => if ss[last] < ss[k] then Some(last) else Some(k)
  }

  /** One more step of the scan: the new score takes over exactly when it is
      the first one or strictly below the best so far. */
  lemma FirstMinSnoc(ss: seq<int>, s: int)
    ensures FirstMin(ss + [s]) == match FirstMin(ss)
                                  case None => Some(0)
                                  case Some(k) => if s < ss[k] then Some(|ss|) else Some(k)
  {
    assert (ss + [s])[..|ss|] == ss;
  }

  /** A score that ties the current best, scanned later, never replaces it. */
  lemma {:induction false} LaterTieKeepsFirst(ss: seq<int>, s: int)
    requires FirstMin(ss).Some? && s == ss[FirstMin(ss).value]
    ensures FirstMin(ss + [s]) == FirstMin(ss)
  {
    assert (ss + [s])[..|ss|] == ss;
  }

  /** When all scores tie, the first one scanned wins. */
  lemma {:induction false} AllTiedPicksFirst(ss: seq<int>, v: int)
    requires |ss| > 0
    requires forall i :: 0 <= i < |ss| ==> ss[i] == v
    ensures FirstMin(ss) == Some(0)
  {
    assert IsFirstMin(ss, 0);
  }
}

=== FILE: sharpen.dfy ===
/** The sharpening pre-filter of the best matcher: a 3x3 convolution with
    constant (zero) boundary, as `scipy.ndimage.convolve(I, k, mode='constant')`
    computes it for an integer-valued image. */
module Sharpening {
  import opened Grid

  /** A 3x3 kernel; entry k[1][1] sits on the output pixel. */
  predicate Is3x3(k: seq<seq<int>>) {
    IsGrid(k, 3, 3)
  }

  function SharpKernel(): (k: seq<seq<int>>)
    ensures Is3x3(k)
  {
    [[0, -1, 0], [-1, 5, -1], [0, -1, 0]]
  }

  /** Entry (r, c) of `a`, or 0 outside it (mode='constant', cval=0). */
  function Tap(a: Image, r: int, c: int): int {
    if 0 <= r < |a| && 0 <= c < |a[r]| then a[r][c] else 0
  }

  /** One kernel row against image row `r`, read right to left (flipped). */
  function FlippedRow(a: Image, kr: seq<int>, r: int, c: int): int
    requires |kr| == 3
  {
    kr[0] * Tap(a, r, c + 1) + kr[1] * Tap(a, r, c) + kr[2] * Tap(a, r, c - 1)
  }

  /** One kernel row against image row `r`, read left to right. */
  function StraightRow(a: Image, kr: seq<int>, r: int, c: int): int
    requires |kr| == 3
  {
    kr[0] * Tap(a, r, c - 1) + kr[1] * Tap(a, r, c) + kr[2] * Tap(a, r, c + 1)
  }

  /** Convolution at (r, c): sum of k[u][v] * a[r+1-u][c+1-v]. */
  function ConvolveAt(a: Image, k: seq<seq<int>>, r: int, c: int): int
    requires Is3x3(k)
  {
    FlippedRow(a, k[0], r + 1, c) + FlippedRow(a, k[1], r, c) + FlippedRow(a, k[2], r - 1, c)
  }

  /** Correlation at (r, c): sum of k[u][v] * a[r-1+u][c-1+v]. */
  function CorrelateAt(a: Image, k: seq<seq<int>>, r: int, c: int): int
    requires Is3x3(k)
  {
    StraightRow(a, k[0], r - 1, c) + StraightRow(a, k[1], r, c) + StraightRow(a, k[2], r + 1, c)
  }

  /** `scipy.ndimage.convolve(a, k, mode='constant')`. */
  function Convolve(a: Image, k: seq<seq<int>>): (s: Image)
    requires Is3x3(k) && IsGrid(a, Height(a), Width(a))
    ensures IsGrid(s, Height(a), Width(a))
  {
    seq(|a|, r requires 0 <= r < |a| => seq(Width(a), c => ConvolveAt(a, k, r, c)))
  }

  function Correlate(a: Image, k: seq<seq<int>>): (s: Image)
    requires Is3x3(k) && IsGrid(a, Height(a), Width(a))
    ensures IsGrid(s, Height(a), Width(a))
  {
    seq(|a|, r requires 0 <= r < |a| => seq(Width(a), c => CorrelateAt(a, k, r, c)))
  }

  /** The kernel turned by half a turn: entry (u, v) moves to (2-u, 2-v). */
  function HalfTurn(k: seq<seq<int>>): (h: seq<seq<int>>)
    requires Is3x3(k)
    ensures Is3x3(h)
  {
    [[k[2][2], k[2][1], k[2][0]], [k[1][2], k[1][1], k[1][0]], [k[0][2], k[0][1], k[0][0]]]
  }

  /** Convolving with any 3x3 kernel is correlating with the kernel turned by
      half a turn. */
  lemma ConvolveIsCorrelateHalfTurn(a: Image, k: seq<seq<int>>)
    requires Is3x3(k) && IsGrid(a, Height(a), Width(a))
    ensures forall u, v :: 0 <= u < 3 && 0 <= v < 3 ==> HalfTurn(k)[u][v] == k[2 - u][2 - v]
    ensures Convolve(a, k) == Correlate(a, HalfTurn(k))
  {
    var s, t := Convolve(a, k), Correlate(a, HalfTurn(k));
    forall r, c | 0 <= r < Height(a) && 0 <= c < Width(a)
      ensures s[r][c] == t[r][c]
    {
    }
    GridExt(s, t, Height(a), Width(a));
  }

  /** A kernel unchanged by a half turn. */
  predicate PointSymmetric(k: seq<seq<int>>)
    requires Is3x3(k)
  {
    && k[0][0] == k[2][2] && k[0][1] == k[2][1] && k[0][2] == k[2][0]
    && k[1][0] == k[1][2]
  }

  /** For a kernel unchanged by a half turn, convolution and correlation agree. */
  lemma SymmetricConvolveIsCorrelate(a: Image, k: seq<seq<int>>)
    requires Is3x3(k) && IsGrid(a, Height(a), Width(a))
    requires PointSymmetric(k)
    ensures Convolve(a, k) == Correlate(a, k)
  {
    var s, t := Convolve(a, k), Correlate(a, k);
    forall r, c | 0 <= r < Height(a) && 0 <= c < Width(a)
      ensures s[r][c] == t[r][c]
    {
    }
    GridExt(s, t, Height(a), Width(a));
  }

  /** `convolve(I, sharp_kernel, mode='constant')` in the best matcher: same shape,
      five times the pixel minus its four neighbours, where a neighbour outside
      the image reads as 0; the kernel is symmetric, so it is also a correlation. */
  function Sharpen(a: Image): (s: Image)
    requires IsGrid(a, Height(a), Width(a))
    ensures IsGrid(s, Height(a), Width(a))
    ensures forall r, c :: 0 <= r < Height(a) && 0 <= c < Width(a) ==>
              s[r][c] == 5 * a[r][c] - Tap(a, r - 1, c) - Tap(a, r + 1, c)
                         - Tap(a, r, c - 1) - Tap(a, r, c + 1)
    ensures s == Correlate(a, SharpKernel())
  {
    SymmetricConvolveIsCorrelate(a, SharpKernel());
    Convolve(a, SharpKernel())
  }
}
